=== FILE: README.md ===
# City service: list query builder and handlers, in Dafny

A model of the City REST service in `index.js`. The service stores cities with five
required fields. It offers create, update, delete and a paginated, filterable list
endpoint. The heart of the model is the list endpoint's query builder. It turns the
raw `page`, `limit`, `filter`, `sort`, `search` and `fields` parameters into four
things: the predicate object, the skip offset, the projection string and the sort
option. A malformed sort stops it with a 400 error. Around it, the four handlers
are modelled as pure functions over an in-memory store `map<Id, City>`. Each returns
the status code, the response body and the store afterwards.

Modules, leaves first:

- `Wrappers` (`wrappers.dfy`): `Option` and `Result`.
- `Strings` (`strings.dfy`): JavaScript's `split` and `join` on one-character
  separators, and decimal rendering of array indices.
- `Json` (`json.dfy`): parsed JSON values, and the properties `Object.assign`
  copies out of one.
- `QueryBuilder` (`query.dfy`): the list parameters, `BuildQuery` and its parts.
- `Cities` (`cities.dfy`): the entity, required-field validation, partial update,
  and the store.
- `Handlers` (`handlers.dfy`): `Create`, `Update`, `Delete` and `List`.

Modelling choices that follow the code:

- JavaScript truthiness. `if (filter)`, `if (search)`, `if (sort)` and
  `fields ? … : ''` skip both an absent and an empty parameter. `QueryBuilder.Given`
  states this, so `Some("")` behaves as `None`.
- `page` and `limit` default to 1 and 10 only when omitted. The response echoes
  them with those defaults applied. The code never validates them, so page 0 gives
  a negative skip, which the store refuses (400). A limit of 0 means "no limit" to
  the store. The code performs no pagination check of its own, so the model has none.
- The filter is parsed before the sort is checked. A malformed filter is therefore
  reported even when the sort is also malformed.
- `Object.assign` copies the enumerable own properties of whatever `JSON.parse`
  returned:
  - an object's members;
  - an array's elements, and a string's characters, under the keys `"0"`, `"1"`, …;
  - nothing from `null`, a boolean or a number.

  A member named `__proto__` is assigned through the prototype setter, so it never
  becomes a key of the query.
- `sort.split(':')` is destructured into its first two pieces only. So
  `"pop:asc:extra"` is accepted as `{pop: 1}`. A sort of any other shape fails.
  `sortOption['__proto__'] = 1` goes through the prototype setter, which ignores a
  number. So `__proto__:asc` is accepted and sorts by nothing.
- The store may refuse a query the builder produced: a text where a number is
  declared, an invalid pattern, an unknown operator. The `catch` answers 400. When a
  query is refused and also has a negative skip, the model reports the refusal.
- `search` overwrites a `name` key supplied by the filter. The search text is
  handed to the store as a regular-expression pattern, not escaped.
- Update and delete cast the path id first. An id that is not 24 hexadecimal
  digits fails with 400 before the lookup. A well-formed id with no record gives
  404 `City not found.`.
- The unique index on `name` makes a create or update fail with 400 when another
  record already carries the name. Required-field validation runs on create only.
  Update applies a partial replacement without validators.

## Model

| member | source | states |
|---|---|---|
| Strings.Split | index.js:91 | `split` on one character yields at least one piece, and no piece contains the separator |
| Strings.SplitAfterHead | index.js:96 | a separator after a separator-free head cuts off exactly that head as the first piece |
| Strings.JoinSplit | index.js:91 | joining a split with the same separator gives back the original string |
| Strings.JoinSplitReplaces | index.js:91 | `split(a).join(b)` equals the string with every `a` replaced by `b` and every other character in place |
| Strings.SplitJoin | index.js:91 | splitting a join of separator-free pieces gives the pieces back |
| Strings.SplitKeepsOut | index.js:91 | a character absent from the string is absent from every piece of its split |
| Strings.ParseNatToString | index.js:79 | reading a rendered array index back as decimal gives the index |
| Strings.NatToStringInjective | index.js:79 | distinct array indices become distinct property keys |
| Json.Indexed | index.js:79 | an array-like source contributes exactly the keys "0".."n-1", each mapped to its own element |
| Json.AssignedPropertiesByKind | index.js:79 | `Object.assign` copies an object's members other than `__proto__`, the elements of an array or the characters of a string by index, and nothing from null, booleans or numbers; `__proto__` never becomes a key |
| QueryBuilder.Predicate | index.js:75-85 | a given search adds or replaces only the `name` key, with the descriptor `{$regex: search, $options: "i"}`; every other filter key keeps its value; without a search the predicate is the filter's properties |
| QueryBuilder.Skip | index.js:88 | skip is 0 on page 1, never negative from page 1 on, and minus one page on page 0 |
| QueryBuilder.SkipCountsEarlierPages | index.js:88 | from page 1 on, skip equals `limit` records for each earlier page, so consecutive pages start one limit apart |
| QueryBuilder.Projection | index.js:91 | no given fields gives `""`; otherwise the projection has the same length as `fields`, with every comma replaced by a space and every other character kept |
| QueryBuilder.ProjectionSplitsBack | index.js:91 | when no field name contains a space, splitting the projection on spaces gives back the comma-separated field names |
| QueryBuilder.ParseSort | index.js:94-102 | an absent or empty sort gives `{}`; otherwise the result has at most one field, never empty and never `__proto__`, with direction 1 or -1, or the error is `InvalidSort` |
| QueryBuilder.SortSegments | index.js:96 | the first two pieces of `field:token` followed by nothing or by a colon-led tail are `field` and `token` |
| QueryBuilder.SortAccepted | index.js:96-99 | every `field:asc` / `field:desc` with a non-empty, colon-free field, followed by nothing or by `:…`, gives `{field: 1}` / `{field: -1}`, or `{}` when the field is `__proto__` |
| QueryBuilder.SortAcceptedShape | index.js:96-99 | an accepted non-empty sort has one field and the string spells that field, a colon and the matching direction token; or it is `{}` and the string spells `__proto__` with a direction token |
| QueryBuilder.SortRejectedIff | index.js:95-102 | a sort is rejected exactly when it is non-empty and no field and direction token spell it |
| QueryBuilder.SortOfSegments | index.js:96-102 | for a colon-free field and token followed by nothing or by `:…`, the sort is accepted exactly when the field is non-empty and the token is `asc` or `desc`, as `{field: direction}` or as `{}` for `__proto__`, and rejected otherwise |
| QueryBuilder.SortIgnoresProtoField | index.js:96-99 | `__proto__:asc` is accepted and gives `{}` |
| QueryBuilder.SortAcceptsAscending | index.js:96-99 | `pop:asc` gives `{pop: 1}` |
| QueryBuilder.SortAcceptsDescending | index.js:96-99 | `pop:desc` gives `{pop: -1}` |
| QueryBuilder.SortIgnoresThirdSegment | index.js:96-99 | `pop:asc:x` gives `{pop: 1}`: segments after the second are ignored |
| Strings.FirstPiece | index.js:96 | the first piece of a split is a prefix of the string, followed by its end or by the separator |
| QueryBuilder.SortRejectsLongToken | index.js:98-101 | `pop:ascending` is rejected |
| QueryBuilder.SortRejectsMissingToken | index.js:98-101 | `pop` is rejected |
| QueryBuilder.SortRejectsEmptyField | index.js:98-101 | `:asc` is rejected |
| QueryBuilder.SortRejectsEmptyToken | index.js:98-101 | `pop:` is rejected |
| QueryBuilder.BuildQuery | index.js:74-103 | a malformed filter fails first; otherwise the query fails exactly when the sort does; a built query carries the combined predicate, the skip, the projection, the sort option, and the page and limit with defaults 1 and 10 |
| QueryBuilder.DefaultQuery | index.js:74-95 | with no parameters: empty predicate, skip 0, empty projection, no sort, page 1, limit 10 |
| QueryBuilder.PredicateIgnoresWindow | index.js:75-88 | two requests with the same filter and search get the same predicate, whatever their page, limit, sort and fields |
| Cities.Validate | index.js:22-28 | a create body is accepted exactly when all five required fields are present and the two text fields are non-empty; the city then carries exactly the supplied values; otherwise the error names exactly the required fields that are missing (or empty text) |
| Cities.ValidateDraft | index.js:22-28 | a city with non-empty text fields validates from its own body back to itself |
| Cities.ApplyLaws | index.js:48 | an empty update changes nothing, and applying one update twice is applying it once |
| Cities.ApplyCompose | index.js:48 | two successive updates are one update with the second's supplied fields laid over the first's; an empty update is neutral on either side of the overlay |
| Handlers.Create | index.js:34-43 | 201 exactly when the body validates and no record holds its name; then only the new record is added under the new id. Otherwise 400 with the store unchanged. Name uniqueness is preserved |
| Handlers.Update | index.js:46-56 | malformed id gives 400. Absent id gives 404 `City not found.`. A name held by another record gives 400. Otherwise 200 with the updated record, and only that record changes. Every failure leaves the store unchanged. Name uniqueness is preserved |
| Handlers.Delete | index.js:59-69 | malformed id gives 400. Absent id gives 404 `City not found.` with the store unchanged. Otherwise 200 and exactly that id is removed, every other record kept |
| Handlers.CreateThenDelete | index.js:34-69 | deleting the record a successful create added restores the previous store |
| Handlers.UpdateNothing | index.js:48-52 | an update with an empty body answers 200 with the stored record and leaves the store as it was |
| Handlers.Matching | index.js:105 | every record found is in the store, with its stored value, and satisfies the condition; every walked record that satisfies it is found |
| Handlers.MatchingFollowsOrder | index.js:105-109 | walking repetition-free store ids finds records in walk order, each id at most once |
| Handlers.MatchingCountsListed | index.js:105-111 | walking repetition-free store ids finds as many records as there are satisfying ids among them |
| Handlers.MatchingCount | index.js:105-111 | walking the whole store finds exactly `countDocuments` satisfying records |
| Handlers.Window | index.js:106-107 | skip then limit keeps the records from position `skip` on, in order: `limit` of them, or all the rest when fewer remain or the limit is 0 |
| Handlers.PagesCoverAll | index.js:106-107 | reading consecutive pages of a positive limit returns every record once, in order |
| Handlers.List | index.js:72-117 | a malformed filter gives 400 with the parse error. A malformed sort gives 400 with the fixed sort message. A query the store refuses gives 400; so does a negative skip. Otherwise 200 with `total` = number of satisfying records, page and limit echoed with their defaults, and the cities are the window of the satisfying records in walk order from `skip` on: `limit` of them, or all the rest when the limit is 0 |
| Handlers.ListRefusesBeforeStore | index.js:98-105 | a query the builder refuses gets the same 400 answer whatever the store holds, matches or refuses |
| Handlers.ListTotalIgnoresPaging | index.js:111-113 | `total` depends only on filter and search, not on page, limit, sort, fields or store order |
| Handlers.ListNothingMatches | index.js:105-113 | when no record satisfies a condition the store accepts, the answer is 200 with total 0 and no cities |
| Handlers.ListPagesTile | index.js:88-107 | the records paged through are exactly the satisfying ones, in walk order; page `n` is their window starting at `(n - 1) * limit`, and the pages together return every one of them once |

## Left out

- Express routing, body parsing, `app.listen`, environment loading and the database
  connection (index.js:1-19, 121-123). These are I/O and bootstrap.
- `JSON.parse` is not modelled. The filter arrives already parsed, or as the
  parser's failure with its message. Duplicate keys are the parser's concern.
- Json.AssignedProperties: a filter member `__proto__` whose value is an object
  replaces the query's prototype. The model drops the key but not the properties
  the query then inherits, because whether the store reads inherited properties
  is the store's behaviour.
- The store's reading of a predicate, including `$regex` matching and any
  operators a filter smuggles in, is a parameter (`Handlers.Matcher`). Which
  queries the store refuses is another (`Handlers.Refusal`). The 200 answer of
  `Handlers.List` assumes the store accepts the query.
- Applying the sort option is a parameter too: the order in which the store walks
  its records. The model checks only that this order lists every record once.
- Applying the projection (`select`) is not modelled. Listed cities carry all
  their fields.
- Handlers.List: the contract does not state that the order or the projection
  follows `sort` and `fields`, because both are the store's behaviour.
- Failures of the store itself (connectivity, timeouts) are not modelled. So are
  the exact texts of library error messages: a caught error carries its kind
  (`Handlers.Failure`) instead of its message.
- Mongoose's casting of body values is not modelled: numeric strings to numbers,
  `null` fields, unknown keys. Create and update bodies arrive as typed records.
  Latitude, longitude and population are exact reals, not IEEE doubles.
- Object ids in their 12-character string form are not modelled as well formed.
  Only the 24-hex-digit form is.
- JavaScript string-to-number coercion of `page` and `limit` is not modelled:
  `parseInt`, NaN, fractions and negative values. They are natural numbers here.
  The response echoes a supplied `page` or `limit` as the query-string text; the
  model echoes the number.
- A repeated or bracketed query parameter (`?sort[a]=b`), which Express delivers as
  an array or an object, is not modelled: every parameter here is a string.
- JavaScript strings are UTF-16 code units; the model's strings are Unicode
  characters.
- Async execution, and the non-atomic count after find under concurrent writes,
  are not modelled. Each handler is one atomic step on the store.

=== FILE: cities.dfy ===
/**
 The City entity: its five required fields, the create body they are
 validated from, the partial update applied to a stored record, and the
 store of records by identifier.
 */
module Cities {
  import opened Wrappers

  /** A record identifier as it appears in a request path. */
  type Id = string

  /** The length of an identifier in hexadecimal form (a 12-byte object id). */
  const IdLength: nat := 24

  predicate IsHexDigit(c: char)
  {
    '0' <= c <= '9' || 'a' <= c <= 'f' || 'A' <= c <= 'F'
  }

  /** Path identifiers the store can cast to an object id: 24 hexadecimal digits. */
  predicate WellFormedId(s: string)
  {
    |s| == IdLength && forall i :: 0 <= i < |s| ==> IsHexDigit(s[i])
  }

  /** A stored city; numeric fields are kept as exact reals. */
  datatype City = City(
    name: string,
    population: real,
    country: string,
    latitude: real,
    longitude: real)

  /** The fields a create body supplies; `None` is a field left out (or null). */
  datatype CityDraft = CityDraft(
    name: Option<string>,
    population: Option<real>,
    country: Option<string>,
    latitude: Option<real>,
    longitude: Option<real>)

  /** The schema's field names, all declared `required: true`. */
  const RequiredFields: set<string> := {"name", "population", "country", "latitude", "longitude"}

  /**
   A required string field passes when present and non-empty (the schema's
   required check refuses the empty string); a required number passes when
   present.
   */
  predicate PresentText(v: Option<string>)
  {
    v.Some? && v.value != ""
  }

  /** The required fields a draft fails to supply. */
  function MissingFields(d: CityDraft): (missing: set<string>)
    ensures missing <= RequiredFields
  {
    (if PresentText(d.name) then {} else {"name"})
    + (if d.population.Some? then {} else {"population"})
    + (if PresentText(d.country) then {} else {"country"})
    + (if d.latitude.Some? then {} else {"latitude"})
    + (if d.longitude.Some? then {} else {"longitude"})
  }

  /**
   Validation of a create body: the city with exactly the supplied values
   when every required field is there, otherwise the non-empty set of
   missing fields.
   */
  function Validate(d: CityDraft): (r: Result<City, set<string>>)
    ensures r.Ok? <==> PresentText(d.name) && d.population.Some? && PresentText(d.country)
                       && d.latitude.Some? && d.longitude.Some?
    ensures r.Ok? ==> Draft(r.value) == d
    ensures r.Err? ==> r.error != {} && r.error <= RequiredFields
    ensures r.Err? ==> ("name" in r.error <==> !PresentText(d.name))
    ensures r.Err? ==> ("population" in r.error <==> d.population.None?)
    ensures r.Err? ==> ("country" in r.error <==> !PresentText(d.country))
    ensures r.Err? ==> ("latitude" in r.error <==> d.latitude.None?)
    ensures r.Err? ==> ("longitude" in r.error <==> d.longitude.None?)
  {
    var missing := MissingFields(d);
    if missing == {} then
      Ok(City(d.name.value, d.population.value, d.country.value, d.latitude.value, d.longitude.value))
    else
      assert missing != {};
      Err(missing)
  }

  /** The create body that supplies every field of `c`. */
  function Draft(c: City): CityDraft
  {
    CityDraft(Some(c.name), Some(c.population), Some(c.country), Some(c.latitude), Some(c.longitude))
  }

  /** A city with non-empty text fields validates from its own draft back to itself. */
  lemma ValidateDraft(c: City)
    requires c.name != "" && c.country != ""
    ensures Validate(Draft(c)) == Ok(c)
  {
  }

  /** The fields an update body sets; `None` leaves the stored value as it is. */
  datatype CityPatch = CityPatch(
    name: Option<string>,
    population: Option<real>,
    country: Option<string>,
    latitude: Option<real>,
    longitude: Option<real>)

  /** The update body that sets nothing. */
  const NoChange: CityPatch := CityPatch(None, None, None, None, None)

  /** Partial field replacement: each set field takes the patch's value, the others keep theirs. */
  function Apply(c: City, p: CityPatch): (c': City)
    ensures c'.name == p.name.GetOr(c.name)
    ensures c'.population == p.population.GetOr(c.population)
    ensures c'.country == p.country.GetOr(c.country)
    ensures c'.latitude == p.latitude.GetOr(c.latitude)
    ensures c'.longitude == p.longitude.GetOr(c.longitude)
  {
    City(p.name.GetOr(c.name), p.population.GetOr(c.population), p.country.GetOr(c.country),
         p.latitude.GetOr(c.latitude), p.longitude.GetOr(c.longitude))
  }

  /** An empty update changes nothing, and applying the same update twice is applying it once. */
  lemma ApplyLaws(c: City, p: CityPatch)
    ensures Apply(c, NoChange) == c
    ensures Apply(Apply(c, p), p) == Apply(c, p)
  {
  }

  /** The value `b` supplies, or `a`'s when `b` supplies none. */
  function Later<T>(a: Option<T>, b: Option<T>): Option<T>
  {
    if b.Some? then b else a
  }

  /** One update setting every field `q` sets to `q`'s value and every other field `p` sets to `p`'s. */
  function Overlay(p: CityPatch, q: CityPatch): CityPatch
  {
    CityPatch(Later(p.name, q.name), Later(p.population, q.population), Later(p.country, q.country),
              Later(p.latitude, q.latitude), Later(p.longitude, q.longitude))
  }

  /**
   Two successive updates are one update with the second's fields laid over
   the first's: a later update wins on every field it sets.
   */
  lemma ApplyCompose(c: City, p: CityPatch, q: CityPatch)
    ensures Apply(Apply(c, p), q) == Apply(c, Overlay(p, q))
    ensures Overlay(p, NoChange) == p && Overlay(NoChange, q) == q
  {
  }

  /** The persisted collection, keyed by identifier. */
  type Store = map<Id, City>

  /** The unique index on `name`: no two records share a name. */
  predicate NamesUnique(store: Store)
  {
    forall a, b :: a in store && b in store && a != b ==> store[a].name != store[b].name
  }

  /** Some record other than `id` already carries `name`. */
  predicate NameHeldByOther(store: Store, name: string, id: Id)
  {
    exists other :: other in store && other != id && store[other].name == name
  }
}

=== FILE: handlers.dfy ===
/**
 The four request handlers over an in-memory store: the status code and body
 each one answers with, and the store it leaves behind. Errors the store or
 the parser would throw are caught and answered with status 400, as the
 handlers' `catch` blocks do.
 */
module Handlers {
  import opened Wrappers
  import opened Json
  import opened Cities
  import opened QueryBuilder

  /** A stored record as returned to the client. */
  datatype Doc = Doc(id: Id, city: City)

  /** An exception thrown inside a handler and caught by its `catch` block. */
  datatype Failure =
    | FilterSyntax(detail: string)      // `JSON.parse` rejected the filter
    | ValidationFailed(missing: set<string>) // required fields missing on create
    | DuplicateName(name: string)       // the unique index on `name` refused the write
    | CastFailed(id: string)            // the path id is not an object id
    | NegativeSkip(skip: int)           // the store refuses a negative skip
    | QueryRefused                      // the store refuses the query itself (see `Refusal`)

  /** A JSON response body. */
  datatype Body =
    | ErrorMessage(error: string)       // `{ error }` with a message the handler writes itself
    | CaughtError(cause: Failure)       // `{ error: err.message }` from a caught exception
    | CityMessage(message: string, doc: Doc)
    | Message(message: string)
    | Listing(total: nat, page: nat, limit: nat, cities: seq<Doc>)

  datatype Response = Response(status: nat, body: Body)

  /** A handler's response together with the store after it. */
  datatype Handled = Handled(response: Response, store: Store)

  const NotFoundMessage: string := "City not found."
  const AddedMessage: string := "City added successfully."
  const UpdatedMessage: string := "City updated successfully."
  const DeletedMessage: string := "City deleted successfully."

  /** The 400 answer to an exception. */
  function Rejected(cause: Failure): Response
  {
    Response(400, CaughtError(cause))
  }

  /** The 404 answer to an update or delete of an absent record. */
  const NotFound: Response := Response(404, ErrorMessage(NotFoundMessage))

  /**
   POST /api/cities. `newId` is the identifier the store assigns. A body
   missing a required field, or naming a city the store already has, is
   answered with 400 and writes nothing; otherwise the city is stored under
   `newId` and answered with 201.
   */
  function Create(store: Store, draft: CityDraft, newId: Id): (r: Handled)
    requires WellFormedId(newId) && newId !in store
    ensures r.response.status == 201 || r.response.status == 400
    ensures r.response.status == 201 <==>
              Validate(draft).Ok? && !NameHeldByOther(store, Validate(draft).value.name, newId)
    ensures r.response.status == 400 ==> r.store == store && r.response.body.CaughtError?
    ensures Validate(draft).Err? ==> r.response == Rejected(ValidationFailed(Validate(draft).error))
    ensures Validate(draft).Ok? && NameHeldByOther(store, Validate(draft).value.name, newId) ==>
              r.response == Rejected(DuplicateName(Validate(draft).value.name))
    ensures r.response.status == 201 ==>
              && r.store.Keys == store.Keys + {newId}
              && Draft(r.store[newId]) == draft
              && (forall id :: id in store ==> r.store[id] == store[id])
              && r.response.body == CityMessage(AddedMessage, Doc(newId, r.store[newId]))
    ensures NamesUnique(store) ==> NamesUnique(r.store)
  {
    match Validate(draft)
    case Err(missing) => Handled(Rejected(ValidationFailed(missing)), store)
    case Ok(city) =>
      if NameHeldByOther(store, city.name, newId) then
        Handled(Rejected(DuplicateName(city.name)), store)
      else
        Handled(Response(201, CityMessage(AddedMessage, Doc(newId, city))), store[newId := city])
  }

  /**
   PUT /api/cities/:id. A path id that is not an object id is answered with
   400; an id with no record with 404 "City not found."; an update that would
   give the record a name another record holds with 400; otherwise the
   record's set fields are replaced and the updated record answered with 200.
   Only the success case writes, and only to `id`.
   */
  function Update(store: Store, id: string, patch: CityPatch): (r: Handled)
    ensures r.response.status in {200, 400, 404}
    ensures !WellFormedId(id) ==> r.response == Rejected(CastFailed(id))
    ensures WellFormedId(id) && id !in store ==> r.response == NotFound
    ensures r.response.status == 404 <==> WellFormedId(id) && id !in store
    ensures WellFormedId(id) && id in store && NameHeldByOther(store, Apply(store[id], patch).name, id) ==>
              r.response == Rejected(DuplicateName(Apply(store[id], patch).name))
    ensures r.response.status == 200 <==>
              WellFormedId(id) && id in store && !NameHeldByOther(store, Apply(store[id], patch).name, id)
    ensures r.response.status != 200 ==> r.store == store
    ensures r.response.status == 200 ==>
              && r.store.Keys == store.Keys
              && r.store[id] == Apply(store[id], patch)
              && (forall other :: other in store && other != id ==> r.store[other] == store[other])
              && r.response.body == CityMessage(UpdatedMessage, Doc(id, r.store[id]))
    ensures NamesUnique(store) ==> NamesUnique(r.store)
  {
    if !WellFormedId(id) then Handled(Rejected(CastFailed(id)), store)
    else if id !in store then Handled(NotFound, store)
    else
      var updated := Apply(store[id], patch);
      if NameHeldByOther(store, updated.name, id) then
        Handled(Rejected(DuplicateName(updated.name)), store)
      else
        Handled(Response(200, CityMessage(UpdatedMessage, Doc(id, updated))), store[id := updated])
  }

  /**
   DELETE /api/cities/:id. A malformed id is answered with 400, an absent one
   with 404 "City not found.", both leaving the store as it was; a present
   one is removed, and nothing else is.
   */
  function Delete(store: Store, id: string): (r: Handled)
    ensures r.response.status in {200, 400, 404}
    ensures !WellFormedId(id) ==> r.response == Rejected(CastFailed(id))
    ensures WellFormedId(id) && id !in store ==> r.response == NotFound
    ensures r.response.status == 200 <==> WellFormedId(id) && id in store
    ensures r.response.status != 200 ==> r.store == store
    ensures r.response.status == 200 ==>
              && r.store.Keys == store.Keys - {id}
              && (forall other :: other in r.store ==> r.store[other] == store[other])
              && r.response.body == Message(DeletedMessage)
    ensures NamesUnique(store) ==> NamesUnique(r.store)
  {
    if !WellFormedId(id) then Handled(Rejected(CastFailed(id)), store)
    else if id !in store then Handled(NotFound, store)
    else Handled(Response(200, Message(DeletedMessage)), store - {id})
  }

  /** Deleting the record a successful create just added restores the store. */
  lemma CreateThenDelete(store: Store, draft: CityDraft, newId: Id)
    requires WellFormedId(newId) && newId !in store
    requires Create(store, draft, newId).response.status == 201
    ensures Delete(Create(store, draft, newId).store, newId).store == store
  {
  }

  /** Updating with an empty body answers with the record as stored and changes nothing. */
  lemma UpdateNothing(store: Store, id: string)
    requires NamesUnique(store)
    requires WellFormedId(id) && id in store
    ensures Update(store, id, NoChange).response == Response(200, CityMessage(UpdatedMessage, Doc(id, store[id])))
    ensures Update(store, id, NoChange).store == store
  {
  }

  // ---------------------------------------------------------------- listing

  /** How the store decides that a record satisfies a query condition. */
  type Matcher = (map<string, Value>, City) -> bool

  /**
   Which built queries the store refuses to run: a condition it cannot cast
   (a text where a number is declared), a pattern that is not a valid regular
   expression, an unknown operator, a projection it cannot read.
   */
  type Refusal = Query -> bool

  /** `order` lists records of `store`, each at most once. */
  predicate ListsRecords(order: seq<Id>, store: Store)
  {
    && (forall i :: 0 <= i < |order| ==> order[i] in store)
    && (forall i, j :: 0 <= i < j < |order| ==> order[i] != order[j])
  }

  /**
   `order` is the order in which the store walks its records under the
   requested sort: every record exactly once.
   */
  predicate Enumerates(order: seq<Id>, store: Store)
  {
    ListsRecords(order, store) && forall id :: id in store ==> id in order
  }

  /** The identifiers of the records that satisfy `condition`. */
  function MatchIds(store: Store, condition: map<string, Value>, matches: Matcher): set<Id>
  {
    set id | id in store && matches(condition, store[id])
  }

  /** `countDocuments(condition)`: the number of records that satisfy it. */
  function Count(store: Store, condition: map<string, Value>, matches: Matcher): nat
  {
    |MatchIds(store, condition, matches)|
  }

  /** The records satisfying `condition`, in the order `order` walks them. */
  function Matching(order: seq<Id>, store: Store, condition: map<string, Value>, matches: Matcher): (docs: seq<Doc>)
    requires forall i :: 0 <= i < |order| ==> order[i] in store
    ensures |docs| <= |order|
    ensures forall d :: d in docs ==>
              d.id in order && d.id in store && d.city == store[d.id] && matches(condition, d.city)
    ensures forall i :: 0 <= i < |order| && matches(condition, store[order[i]]) ==>
              Doc(order[i], store[order[i]]) in docs
  {
    if |order| == 0 then []
    else
      var tail := order[1..];
      var rest := Matching(tail, store, condition, matches);
      var id := order[0];
      assert forall i :: 1 <= i < |order| ==> order[i] == tail[i - 1];
      if matches(condition, store[id]) then [Doc(id, store[id])] + rest else rest
  }

  /** The position at which `order` first lists `id`. */
  function Rank(order: seq<Id>, id: Id): (k: nat)
    requires id in order
    ensures k < |order| && order[k] == id
  {
    if order[0] == id then 0 else 1 + Rank(order[1..], id)
  }

  /** A repetition-free listing without its first record is still repetition-free, and lacks that record. */
  lemma ListsRecordsTail(order: seq<Id>, store: Store)
    requires ListsRecords(order, store) && |order| > 0
    ensures ListsRecords(order[1..], store)
    ensures order[0] !in order[1..]
  {
    var tail := order[1..];
    forall i, j | 0 <= i < j < |tail|
      ensures tail[i] != tail[j]
    {
      assert tail[i] == order[i + 1] && tail[j] == order[j + 1];
    }
    forall k | 0 <= k < |tail|
      ensures tail[k] != order[0]
    {
      assert tail[k] == order[k + 1];
    }
  }

  /** `docs` lists records of `order` in the order `order` lists them. */
  predicate FollowsOrder(docs: seq<Doc>, order: seq<Id>)
  {
    && (forall i :: 0 <= i < |docs| ==> docs[i].id in order)
    && (forall i, j :: 0 <= i < j < |docs| ==> Rank(order, docs[i].id) < Rank(order, docs[j].id))
  }

  /**
   Records listed in the order of a listing's tail are still in order in the
   whole listing, also behind the listing's first record.
   */
  lemma FollowsOrderCons(c: City, rest: seq<Doc>, order: seq<Id>)
    requires |order| > 0 && order[0] !in order[1..]
    requires FollowsOrder(rest, order[1..])
    ensures FollowsOrder(rest, order)
    ensures FollowsOrder([Doc(order[0], c)] + rest, order)
  {
    var tail := order[1..];
    forall k | 0 <= k < |rest|
      ensures rest[k].id in order && Rank(order, rest[k].id) == 1 + Rank(tail, rest[k].id)
    {
      assert rest[k].id in tail;
    }
    var docs := [Doc(order[0], c)] + rest;
    forall i, j | 0 <= i < j < |docs|
      ensures Rank(order, docs[i].id) < Rank(order, docs[j].id)
    {
      assert docs[j] == rest[j - 1];
      if i > 0 {
        assert docs[i] == rest[i - 1];
      }
    }
  }

  /** Records in a listing's order are distinct records. */
  lemma FollowsOrderDistinct(docs: seq<Doc>, order: seq<Id>)
    requires FollowsOrder(docs, order)
    ensures forall i, j :: 0 <= i < j < |docs| ==> docs[i].id != docs[j].id
  {
    forall i, j | 0 <= i < j < |docs|
      ensures docs[i].id != docs[j].id
    {
      assert Rank(order, docs[i].id) < Rank(order, docs[j].id);
    }
  }

  /**
   Walking a repetition-free listing finds records in the listing's order,
   each at most once: a record found earlier is listed earlier.
   */
  lemma {:induction false} MatchingFollowsOrder(order: seq<Id>, store: Store, condition: map<string, Value>, matches: Matcher)
    requires ListsRecords(order, store)
    ensures FollowsOrder(Matching(order, store, condition, matches), order)
    ensures var docs := Matching(order, store, condition, matches);
      forall i, j :: 0 <= i < j < |docs| ==> docs[i].id != docs[j].id
  {
    var docs := Matching(order, store, condition, matches);
    if |order| > 0 {
      var tail := order[1..];
      ListsRecordsTail(order, store);
      MatchingFollowsOrder(tail, store, condition, matches);
      FollowsOrderCons(store[order[0]], Matching(tail, store, condition, matches), order);
    }
    FollowsOrderDistinct(docs, order);
  }

  /** The identifiers among `order` whose records satisfy `condition`. */
  function MatchIdsIn(order: seq<Id>, store: Store, condition: map<string, Value>, matches: Matcher): set<Id>
  {
    set id | id in order && id in store && matches(condition, store[id])
  }

  /** Walking a repetition-free listing of records finds each satisfying record once. */
  lemma {:induction false} MatchingCountsListed(order: seq<Id>, store: Store, condition: map<string, Value>, matches: Matcher)
    requires ListsRecords(order, store)
    ensures |Matching(order, store, condition, matches)| == |MatchIdsIn(order, store, condition, matches)|
  {
    if |order| > 0 {
      var x, tail := order[0], order[1..];
      assert ListsRecords(tail, store) by {
        forall i, j | 0 <= i < j < |tail|
          ensures tail[i] != tail[j]
        {
          assert tail[i] == order[i + 1] && tail[j] == order[j + 1];
        }
      }
      assert x !in tail by {
        forall k | 0 <= k < |tail|
          ensures tail[k] != x
        {
          assert tail[k] == order[k + 1];
        }
      }
      MatchingCountsListed(tail, store, condition, matches);
      assert order == [x] + tail;
      var here := MatchIdsIn(order, store, condition, matches);
      var there := MatchIdsIn(tail, store, condition, matches);
      if matches(condition, store[x]) {
        assert here == there + {x};
      } else {
        assert here == there;
      }
    }
  }

  /** When `order` walks the whole store, the walk finds exactly `Count` records. */
  lemma MatchingCount(order: seq<Id>, store: Store, condition: map<string, Value>, matches: Matcher)
    requires Enumerates(order, store)
    ensures |Matching(order, store, condition, matches)| == Count(store, condition, matches)
  {
    MatchingCountsListed(order, store, condition, matches);
    assert MatchIdsIn(order, store, condition, matches) == MatchIds(store, condition, matches);
  }

  /**
   `.skip(skip).limit(limit)`: the records from position `skip` on, at most
   `limit` of them, where a limit of zero sets no bound.
   */
  function Window(docs: seq<Doc>, skip: nat, limit: nat): (w: seq<Doc>)
    ensures skip >= |docs| ==> w == []
    ensures skip < |docs| && limit == 0 ==> |w| == |docs| - skip
    ensures skip < |docs| && limit > 0 ==> |w| == if skip + limit <= |docs| then limit else |docs| - skip
    ensures forall i :: 0 <= i < |w| ==> skip + i < |docs| && w[i] == docs[skip + i]
  {
    if skip >= |docs| then []
    else if limit == 0 || skip + limit >= |docs| then docs[skip..]
    else docs[skip..skip + limit]
  }

  /** The pages of size `limit` from position `from` on, one after another. */
  function PagesFrom(docs: seq<Doc>, from: nat, limit: nat): seq<Doc>
    requires limit > 0
    decreases |docs| - from
  {
    if from >= |docs| then [] else Window(docs, from, limit) + PagesFrom(docs, from + limit, limit)
  }

  /** Reading every page in turn returns every record once, in order. */
  lemma {:induction false} PagesCoverAll(docs: seq<Doc>, from: nat, limit: nat)
    requires limit > 0 && from <= |docs|
    ensures PagesFrom(docs, from, limit) == docs[from..]
    decreases |docs| - from
  {
    if from < |docs| {
      if from + limit <= |docs| {
        PagesCoverAll(docs, from + limit, limit);
        assert docs[from..] == docs[from..from + limit] + docs[from + limit..];
      } else {
        assert PagesFrom(docs, from + limit, limit) == [];
      }
    }
  }

  /**
   GET /api/cities. `order` is the store's walk under the requested sort,
   `matches` its reading of a condition and `refuses` the queries it will not
   run. A query the builder refuses is answered with 400 before the store is
   consulted; a query the store refuses, or a negative skip, is answered with
   400 by the catch block; otherwise the answer is 200 with the number of
   satisfying records, the echoed page and limit, and the window of
   satisfying records for that page.
   */
  function List(store: Store, p: ListParams, matches: Matcher, refuses: Refusal, order: seq<Id>): (r: Response)
    requires Enumerates(order, store)
    ensures r.status == 200 || r.status == 400
    ensures p.filter.Unparsable? ==> r == Rejected(FilterSyntax(p.filter.detail))
    ensures !p.filter.Unparsable? && ParseSort(p.sort).Err? ==> r == Response(400, ErrorMessage(InvalidSortMessage))
    ensures BuildQuery(p).Ok? && refuses(BuildQuery(p).value) ==> r == Rejected(QueryRefused)
    ensures BuildQuery(p).Ok? && !refuses(BuildQuery(p).value) && BuildQuery(p).value.skip < 0 ==>
              r == Rejected(NegativeSkip(BuildQuery(p).value.skip))
    ensures r.status == 200 <==>
              BuildQuery(p).Ok? && !refuses(BuildQuery(p).value) && BuildQuery(p).value.skip >= 0
    ensures r.status == 200 ==>
              && r.body.Listing?
              && r.body.page == p.page.GetOr(DefaultPage)
              && r.body.limit == p.limit.GetOr(DefaultLimit)
              && r.body.total == Count(store, Predicate(p.filter, p.search), matches)
              && |r.body.cities| <= r.body.total
              && (r.body.limit > 0 ==> |r.body.cities| <= r.body.limit)
              && (forall d :: d in r.body.cities ==>
                    d.id in store && d.city == store[d.id] && matches(Predicate(p.filter, p.search), d.city))
    ensures r.status == 200 ==>
              r.body.cities == Window(Matching(order, store, Predicate(p.filter, p.search), matches),
                                      BuildQuery(p).value.skip as nat, BuildQuery(p).value.limit)
  {
    match BuildQuery(p)
    case Err(MalformedFilter(detail)) => Rejected(FilterSyntax(detail))
    case Err(InvalidSort) => Response(400, ErrorMessage(InvalidSortMessage))
    case Ok(q) =>
      if refuses(q) then Rejected(QueryRefused)
      else if q.skip < 0 then Rejected(NegativeSkip(q.skip))
      else
        var found := Matching(order, store, q.condition, matches);
        MatchingCount(order, store, q.condition, matches);
        var page := Window(found, q.skip, q.limit);
        assert forall d :: d in page ==> d in found;
        Response(200, Listing(Count(store, q.condition, matches), q.page, q.limit, page))
  }

  /** A refused query is answered without looking at the store: any store gives the same answer. */
  lemma ListRefusesBeforeStore(s1: Store, s2: Store, p: ListParams, m1: Matcher, m2: Matcher,
                               r1: Refusal, r2: Refusal, o1: seq<Id>, o2: seq<Id>)
    requires Enumerates(o1, s1) && Enumerates(o2, s2)
    requires BuildQuery(p).Err?
    ensures List(s1, p, m1, r1, o1) == List(s2, p, m2, r2, o2)
    ensures List(s1, p, m1, r1, o1).status == 400
  {
  }

  /**
   The reported total depends only on the filter and the search: not on the
   page, the limit, the sort, the projection or the walk order.
   */
  lemma ListTotalIgnoresPaging(store: Store, p1: ListParams, p2: ListParams, matches: Matcher,
                               refuses: Refusal, o1: seq<Id>, o2: seq<Id>)
    requires Enumerates(o1, store) && Enumerates(o2, store)
    requires p1.filter == p2.filter && p1.search == p2.search
    requires List(store, p1, matches, refuses, o1).status == 200 && List(store, p2, matches, refuses, o2).status == 200
    ensures List(store, p1, matches, refuses, o1).body.total == List(store, p2, matches, refuses, o2).body.total
  {
  }

  /**
   With nothing satisfying the condition, a query the store runs is a success
   with total 0 and no cities.
   */
  lemma ListNothingMatches(store: Store, p: ListParams, matches: Matcher, refuses: Refusal, order: seq<Id>)
    requires Enumerates(order, store)
    requires BuildQuery(p).Ok? && BuildQuery(p).value.skip >= 0 && !refuses(BuildQuery(p).value)
    requires forall id :: id in store ==> !matches(Predicate(p.filter, p.search), store[id])
    ensures List(store, p, matches, refuses, order) == Response(200, Listing(0, p.page.GetOr(DefaultPage), p.limit.GetOr(DefaultLimit), []))
  {
    var q := BuildQuery(p).value;
    assert MatchIds(store, q.condition, matches) == {};
    MatchingCount(order, store, q.condition, matches);
  }

  /**
   The pages of a listing follow one another. The satisfying records, in
   the store's walk order and each once, are exactly the records that
   satisfy the condition. For page sizes above zero, page `n` holds them from
   position `(n - 1) * limit` on, and reading pages 1, 2, ... in turn returns
   every one of them once.
   */
  lemma ListPagesTile(store: Store, p: ListParams, matches: Matcher, refuses: Refusal, order: seq<Id>)
    requires Enumerates(order, store)
    requires BuildQuery(p).Ok? && BuildQuery(p).value.skip >= 0 && !refuses(BuildQuery(p).value)
    requires p.limit.GetOr(DefaultLimit) > 0
    ensures var found := Matching(order, store, Predicate(p.filter, p.search), matches);
            forall id :: id in store ==>
              (Doc(id, store[id]) in found <==> matches(Predicate(p.filter, p.search), store[id]))
    ensures FollowsOrder(Matching(order, store, Predicate(p.filter, p.search), matches), order)
    ensures var found := Matching(order, store, Predicate(p.filter, p.search), matches);
            var limit := p.limit.GetOr(DefaultLimit);
            && List(store, p, matches, refuses, order).body.cities
               == Window(found, Skip(p.page.GetOr(DefaultPage), limit), limit)
            && PagesFrom(found, 0, limit) == found
  {
    var condition := Predicate(p.filter, p.search);
    var found := Matching(order, store, condition, matches);
    forall id | id in store && matches(condition, store[id])
      ensures Doc(id, store[id]) in found
    {
      var i :| 0 <= i < |order| && order[i] == id;
    }
    MatchingFollowsOrder(order, store, condition, matches);
    PagesCoverAll(found, 0, p.limit.GetOr(DefaultLimit));
  }
}

=== FILE: json.dfy ===
/**
 Parsed JSON values, and the properties `Object.assign(target, value)` copies
 out of one of them. The `filter` request parameter is parsed into a `Value`
 and copied into the query object this way.
 */
module Json {
  import opened Strings

  /** A JSON value as `JSON.parse` returns it; numbers are kept as exact reals. */
  datatype Value =
    | Null
    | Bool(b: bool)
    | Num(n: real)
    | Str(s: string)
    | Arr(items: seq<Value>)
    | Obj(fields: map<string, Value>)

  /**
   The accessor key of every JavaScript object. Assigning to it changes the
   object's prototype (or does nothing, for a value that is not an object)
   and never creates an own property of that name.
   */
  const ProtoKey: string := "__proto__"

  /** The property keys of an indexed collection of length `n`: "0", "1", ... */
  function IndexKeys(n: nat): set<string>
  {
    set i | 0 <= i < n :: NatToString(i)
  }

  /**
   The own properties of an array-like source: element `i` under the key
   `String(i)`.
   */
  function Indexed(xs: seq<Value>): (m: map<string, Value>)
    ensures m.Keys == IndexKeys(|xs|)
    ensures forall i :: 0 <= i < |xs| ==> m[NatToString(i)] == xs[i]
  {
    if |xs| == 0 then map[]
    else
      var last := |xs| - 1;
      var prev := Indexed(xs[..last]);
      var m := prev[NatToString(last) := xs[last]];
      forall i | 0 <= i < |xs|
        ensures m[NatToString(i)] == xs[i]
      {
        if i < last {
          NatToStringInjective(i, last);
          assert xs[..last][i] == xs[i];
        }
      }
      IndexKeysStep(last);
      m
  }

  /** One more index adds exactly its own key. */
  lemma IndexKeysStep(n: nat)
    ensures IndexKeys(n + 1) == IndexKeys(n) + {NatToString(n)}
  {
  }

  /** The one-character strings a JavaScript string source exposes under its indices. */
  function Characters(s: string): (cs: seq<Value>)
    ensures |cs| == |s|
    ensures forall i :: 0 <= i < |s| ==> cs[i] == Str([s[i]])
  {
    seq(|s|, i requires 0 <= i < |s| => Str([s[i]]))
  }

  /**
   The own properties `Object.assign` leaves on a fresh target copied from
   `v`: an object's members other than `__proto__` (whose assignment goes
   through the prototype setter), an array's elements and a string's
   characters by index, and nothing at all from `null`, a boolean or a number.
   */
  function AssignedProperties(v: Value): (m: map<string, Value>)
  {
    match v
    case Obj(fields) => fields - {ProtoKey}
    case Arr(items) => Indexed(items)
    case Str(s) => Indexed(Characters(s))
    case _ => map[]
  }

  /** What `AssignedProperties` yields for each kind of JSON value. */
  lemma AssignedPropertiesByKind(v: Value)
    ensures v.Obj? ==> AssignedProperties(v).Keys == v.fields.Keys - {ProtoKey}
    ensures v.Obj? ==> forall k :: k in v.fields && k != ProtoKey ==> AssignedProperties(v)[k] == v.fields[k]
    ensures ProtoKey !in AssignedProperties(v)
    ensures v.Arr? ==> AssignedProperties(v).Keys == IndexKeys(|v.items|)
    ensures v.Arr? ==> forall i :: 0 <= i < |v.items| ==> AssignedProperties(v)[NatToString(i)] == v.items[i]
    ensures v.Str? ==> AssignedProperties(v).Keys == IndexKeys(|v.s|)
    ensures v.Str? ==> forall i :: 0 <= i < |v.s| ==> AssignedProperties(v)[NatToString(i)] == Str([v.s[i]])
    ensures v.Null? || v.Bool? || v.Num? ==> AssignedProperties(v) == map[]
  {
  }
}

=== FILE: query.dfy ===
/**
 The list endpoint's query builder: from the raw `page`, `limit`, `filter`,
 `sort`, `search` and `fields` parameters to the predicate, skip offset,
 projection and sort option handed to the store, or to the error that stops
 the request before any store call.
 */
module QueryBuilder {
  import opened Wrappers
  import opened Strings
  import opened Json

  /** Defaults of the destructuring `{ page = 1, limit = 10 }`. */
  const DefaultPage: nat := 1
  const DefaultLimit: nat := 10

  /** Sort directions as the store's sort option spells them. */
  const Ascending: int := 1
  const Descending: int := -1

  /** The body of the 400 response for a sort parameter of the wrong shape. */
  const InvalidSortMessage: string := "Invalid sort parameter. Use 'field:asc' or 'field:desc'."

  /** The key the search parameter overrides. */
  const SearchKey: string := "name"

  /**
   JavaScript truthiness of a query-string parameter: it is present and not
   the empty string.
   */
  predicate Given(p: Option<string>)
  {
    p.Some? && p.value != ""
  }

  /**
   The `filter` parameter after `JSON.parse`: absent (or empty, which `if
   (filter)` skips), parsed to a value, or rejected by the parser with its
   message.
   */
  datatype FilterArg = NoFilter | Parsed(value: Value) | Unparsable(detail: string)

  /** The query parameters of a list request; `page` and `limit` are already numbers. */
  datatype ListParams = ListParams(
    page: Option<nat>,
    limit: Option<nat>,
    filter: FilterArg,
    sort: Option<string>,
    search: Option<string>,
    fields: Option<string>)

  /** Why the builder refused to produce a query. */
  datatype QueryError =
    | MalformedFilter(detail: string) // the parser's exception, reported by the catch-all handler
    | InvalidSort                     // reported as `InvalidSortMessage`

  /** What the handler hands to `find`, `skip`, `limit`, `select` and `sort`. */
  datatype Query = Query(
    condition: map<string, Value>,
    skip: int,
    projection: string,
    sortOption: map<string, int>,
    page: nat,
    limit: nat)

  /** The request with every parameter omitted. */
  const NoParams: ListParams := ListParams(None, None, NoFilter, None, None, None)

  /** `{ $regex: search, $options: 'i' }`: a case-insensitive pattern match on `search`. */
  function RegexFor(search: string): (v: Value)
    ensures v.Obj? && v.fields.Keys == {"$regex", "$options"}
    ensures v.fields["$regex"] == Str(search) && v.fields["$options"] == Str("i")
  {
    Obj(map["$regex" := Str(search), "$options" := Str("i")])
  }

  /** The query object after `Object.assign(query, JSON.parse(filter))`, or `{}`. */
  function FilterPredicate(filter: FilterArg): map<string, Value>
    requires !filter.Unparsable?
  {
    if filter.Parsed? then AssignedProperties(filter.value) else map[]
  }

  /**
   The query object after the search step: a given `search` sets the `name`
   key to its pattern, replacing any `name` the filter supplied; every other
   filter key is kept.
   */
  function Predicate(filter: FilterArg, search: Option<string>): (pred: map<string, Value>)
    requires !filter.Unparsable?
    ensures Given(search) ==> pred.Keys == FilterPredicate(filter).Keys + {SearchKey}
    ensures Given(search) ==> pred[SearchKey] == RegexFor(search.value)
    ensures forall k :: k in FilterPredicate(filter) && (k != SearchKey || !Given(search)) ==>
              k in pred && pred[k] == FilterPredicate(filter)[k]
    ensures !Given(search) ==> pred.Keys == FilterPredicate(filter).Keys
  {
    var base := FilterPredicate(filter);
    if Given(search) then base[SearchKey := RegexFor(search.value)] else base
  }

  /**
   The number of records skipped, `(page - 1) * limit`: zero on the first
   page, never negative from the first page on, and minus one page for page
   zero.
   */
  function Skip(page: nat, limit: nat): (skip: int)
    ensures page == 1 ==> skip == 0
    ensures page >= 1 ==> skip >= 0
    ensures page == 0 ==> skip == -(limit as int)
  {
    (page - 1) * limit
  }

  /** The records on the pages before `page`: `limit` of them for each earlier page. */
  function RecordsBefore(page: nat, limit: nat): nat
  {
    if page <= 1 then 0 else RecordsBefore(page - 1, limit) + limit
  }

  /**
   From the first page on, the skip offset is exactly the number of records on
   the earlier pages, so consecutive pages tile the result without gap or
   overlap.
   */
  lemma {:induction false} SkipCountsEarlierPages(page: nat, limit: nat)
    requires page >= 1
    ensures Skip(page, limit) == RecordsBefore(page, limit)
    ensures Skip(page + 1, limit) == Skip(page, limit) + limit
  {
    if page > 1 {
      SkipCountsEarlierPages(page - 1, limit);
    }
  }

  /**
   `fields.split(',').join(' ')` for a given `fields`, and `''` otherwise:
   the comma-separated field list with every comma turned into a space.
   */
  function Projection(fields: Option<string>): (proj: string)
    ensures !Given(fields) ==> proj == ""
    ensures Given(fields) ==> |proj| == |fields.value|
    ensures Given(fields) ==> forall k :: 0 <= k < |proj| ==>
              proj[k] == if fields.value[k] == ',' then ' ' else fields.value[k]
  {
    if Given(fields) then
      JoinSplitReplaces(fields.value, ',', ' ');
      Join(Split(fields.value, ','), ' ')
    else ""
  }

  /**
   When no listed field name contains a space, splitting the projection on
   spaces gives back the comma-separated pieces.
   */
  lemma ProjectionSplitsBack(fields: string)
    requires ' ' !in fields
    ensures Split(Projection(Some(fields)), ' ') == Split(fields, ',')
  {
    SplitKeepsOut(fields, ',', ' ');
    SplitJoin(Split(fields, ','), ' ');
  }

  /** The sort direction a direction token names. */
  function Direction(token: string): int
  {
    if token == "asc" then Ascending else Descending
  }

  /** The direction tokens `sort` accepts. */
  predicate IsDirectionToken(token: string)
  {
    token == "asc" || token == "desc"
  }

  /**
   The sort option for a `sort` parameter. Only the first two colon-separated
   pieces count: a non-empty field followed by `asc` or `desc` is accepted,
   anything else is refused. Storing a direction under the field `__proto__`
   goes through the prototype setter, which ignores a number, so that sort
   is accepted and leaves the option empty.
   */
  function ParseSort(sort: Option<string>): (r: Result<map<string, int>, QueryError>)
    ensures !Given(sort) ==> r == Ok(map[])
    ensures r.Err? ==> r.error == InvalidSort
    ensures r.Ok? ==> |r.value| <= 1
    ensures r.Ok? ==> forall f :: f in r.value ==> f != "" && f != ProtoKey && (r.value[f] == Ascending || r.value[f] == Descending)
  {
    if !Given(sort) then Ok(map[])
    else
      var parts := Split(sort.value, ':');
      var field := parts[0];
      if field != "" && |parts| >= 2 && IsDirectionToken(parts[1]) then
        Ok(SortEntry(field, Direction(parts[1])))
      else
        Err(InvalidSort)
  }

  /** The sort option after `sortOption[field] = direction` on an empty object. */
  function SortEntry(field: string, direction: int): map<string, int>
  {
    if field == ProtoKey then map[] else map[field := direction]
  }

  /**
   `s` reads `field`, a colon and `token`, followed either by nothing or by a
   further colon (and anything after it); `field` is non-empty and contains
   no colon.
   */
  predicate SortSpells(s: string, field: string, token: string)
  {
    && field != ""
    && ':' !in field
    && |field| + 1 + |token| <= |s|
    && s[..|field|] == field
    && s[|field|] == ':'
    && s[|field| + 1..|field| + 1 + |token|] == token
    && (|field| + 1 + |token| == |s| || s[|field| + 1 + |token|] == ':')
  }

  /** The direction token of a sort-option value. */
  function TokenOf(direction: int): string
  {
    if direction == Ascending then "asc" else "desc"
  }

  /** A separator-free head ends where the tail's leading colon, if any, begins. */
  lemma {:induction false} HeadBeforeColon(head: string, tail: string)
    requires ':' !in head
    requires tail == "" || tail[0] == ':'
    ensures Split(head + tail, ':')[0] == head
  {
    if tail == "" {
      assert head + tail == head;
      SplitWithout(head, ':');
    } else {
      assert head + tail == head + [':'] + tail[1..];
      SplitAfterHead(head, ':', tail[1..]);
    }
  }

  /** The first two pieces of a `field:token` sort parameter whose tail is empty or starts with a colon. */
  lemma {:induction false} SortSegments(field: string, token: string, tail: string)
    requires ':' !in field && ':' !in token
    requires tail == "" || tail[0] == ':'
    ensures var parts := Split(field + [':'] + token + tail, ':');
      |parts| >= 2 && parts[0] == field && parts[1] == token
  {
    var rest := token + tail;
    assert field + [':'] + token + tail == field + [':'] + rest;
    SplitAfterHead(field, ':', rest);
    HeadBeforeColon(token, tail);
  }

  /**
   What `ParseSort` makes of a `field:token` parameter whose tail is empty or
   colon-led: accepted exactly when the field is non-empty and the token is a
   direction, with the direction stored under the field unless the field is
   `__proto__`.
   */
  lemma SortOfSegments(field: string, token: string, tail: string)
    requires ':' !in field && ':' !in token
    requires tail == "" || tail[0] == ':'
    ensures ParseSort(Some(field + [':'] + token + tail)) ==
              if field == "" || !IsDirectionToken(token) then Err(InvalidSort)
              else if field == ProtoKey then Ok(map[])
              else Ok(map[field := Direction(token)])
  {
    SortSegments(field, token, tail);
  }

  /**
   Every `field:asc` and `field:desc`, with or without a `:...` tail, is
   accepted; it sorts by that field, except that `__proto__` gives no sort.
   */
  lemma {:induction false} SortAccepted(s: string, field: string, token: string)
    requires IsDirectionToken(token)
    requires SortSpells(s, field, token)
    ensures field != ProtoKey ==> ParseSort(Some(s)) == Ok(map[field := Direction(token)])
    ensures field == ProtoKey ==> ParseSort(Some(s)) == Ok(map[])
  {
    var n := |field| + 1 + |token|;
    var tail := s[n..];
    assert s == field + [':'] + token + tail by {
      assert s == s[..|field|] + [s[|field|]] + s[|field| + 1..n] + s[n..];
    }
    SortSegments(field, token, tail);
  }

  /**
   An accepted non-empty sort either names one field, spelled in `s` with its
   direction token, or is empty because `s` spells `__proto__` with a
   direction token.
   */
  lemma {:induction false} SortAcceptedShape(s: string)
    requires s != ""
    requires ParseSort(Some(s)).Ok?
    ensures |ParseSort(Some(s)).value| == 1 || SortSpells(s, ProtoKey, "asc") || SortSpells(s, ProtoKey, "desc")
    ensures ParseSort(Some(s)).value == map[] ==> SortSpells(s, ProtoKey, "asc") || SortSpells(s, ProtoKey, "desc")
    ensures forall f :: f in ParseSort(Some(s)).value ==>
              SortSpells(s, f, TokenOf(ParseSort(Some(s)).value[f]))
  {
    var parts := Split(s, ':');
    assert ':' in s;
    var i := IndexOf(s, ':');
    var field, rest := s[..i], s[i + 1..];
    assert parts == [field] + Split(rest, ':');
    var token := Split(rest, ':')[0];
    assert parts[1] == token;
    FirstPiece(rest, ':');
    assert IsDirectionToken(token);
    SpelledAround(s, field, token);
    assert TokenOf(Direction(token)) == token;
    assert ParseSort(Some(s)).value == SortEntry(field, Direction(token));
  }

  /** A colon-free field, its colon and a token that ends `s` or a further colon spell `s`. */
  lemma SpelledAround(s: string, field: string, token: string)
    requires field != "" && ':' !in field
    requires |field| < |s| && s[..|field|] == field && s[|field|] == ':'
    requires var rest := s[|field| + 1..];
      |token| <= |rest| && rest[..|token|] == token && (|token| == |rest| || rest[|token|] == ':')
    requires IsDirectionToken(token)
    ensures SortSpells(s, field, TokenOf(Direction(token)))
  {
    var rest := s[|field| + 1..];
    assert TokenOf(Direction(token)) == token;
    assert s[|field| + 1..|field| + 1 + |token|] == rest[..|token|];
  }

  /**
   A given sort is rejected exactly when no field and direction token spell
   it; an omitted or empty sort is never rejected.
   */
  lemma SortRejectedIff(s: string)
    ensures ParseSort(Some(s)).Err? <==>
              s != "" && forall f, t :: IsDirectionToken(t) ==> !SortSpells(s, f, t)
  {
    if ParseSort(Some(s)).Err? {
      forall f, t | IsDirectionToken(t)
        ensures !SortSpells(s, f, t)
      {
        if SortSpells(s, f, t) {
          SortAccepted(s, f, t);
        }
      }
    } else if s != "" {
      SortAcceptedShape(s);
      var m := ParseSort(Some(s)).value;
      if m == map[] {
        assert SortSpells(s, ProtoKey, "asc") || SortSpells(s, ProtoKey, "desc");
      } else {
        var f :| f in m;
        assert IsDirectionToken(TokenOf(m[f]));
      }
    }
  }

  /** `__proto__:asc` is accepted but sorts by nothing: the option stays empty. */
  lemma SortIgnoresProtoField()
    ensures ParseSort(Some("__proto__:asc")) == Ok(map[])
  {
    SortOfSegments(ProtoKey, "asc", "");
    assert ProtoKey + [':'] + "asc" + "" == "__proto__:asc";
  }

  /** `pop:asc` sorts by `pop` ascending. */
  lemma SortAcceptsAscending()
    ensures ParseSort(Some("pop:asc")) == Ok(map["pop" := Ascending])
  {
    SortOfSegments("pop", "asc", "");
    assert "pop" + [':'] + "asc" + "" == "pop:asc";
  }

  /** `pop:desc` sorts by `pop` descending. */
  lemma SortAcceptsDescending()
    ensures ParseSort(Some("pop:desc")) == Ok(map["pop" := Descending])
  {
    SortOfSegments("pop", "desc", "");
    assert "pop" + [':'] + "desc" + "" == "pop:desc";
  }

  /** A third segment is ignored: `pop:asc:x` sorts by `pop` ascending. */
  lemma SortIgnoresThirdSegment()
    ensures ParseSort(Some("pop:asc:x")) == Ok(map["pop" := Ascending])
  {
    SortOfSegments("pop", "asc", ":x");
    assert "pop" + [':'] + "asc" + ":x" == "pop:asc:x";
  }

  /** A direction token that merely starts with `asc` is rejected. */
  lemma SortRejectsLongToken()
    ensures ParseSort(Some("pop:ascending")) == Err(InvalidSort)
  {
    SortOfSegments("pop", "ascending", "");
    assert "pop" + [':'] + "ascending" + "" == "pop:ascending";
  }

  /** A field without a direction is rejected. */
  lemma SortRejectsMissingToken()
    ensures ParseSort(Some("pop")) == Err(InvalidSort)
  {
  }

  /** A direction without a field is rejected. */
  lemma SortRejectsEmptyField()
    ensures ParseSort(Some(":asc")) == Err(InvalidSort)
  {
  }

  /** A field followed by a colon and nothing else is rejected. */
  lemma SortRejectsEmptyToken()
    ensures ParseSort(Some("pop:")) == Err(InvalidSort)
  {
  }

  /**
   The whole builder. A malformed filter fails first (it is parsed before
   anything else); otherwise a malformed sort fails; otherwise the query
   combines the filter and search predicate, the skip offset, the projection
   and the sort option, and carries `page` and `limit` with their defaults.
   */
  function BuildQuery(p: ListParams): (r: Result<Query, QueryError>)
    ensures p.filter.Unparsable? ==> r == Err(MalformedFilter(p.filter.detail))
    ensures !p.filter.Unparsable? ==> (r.Err? <==> ParseSort(p.sort).Err?)
    ensures r.Err? ==> r.error.InvalidSort? || p.filter.Unparsable?
    ensures r.Ok? ==> !p.filter.Unparsable?
    ensures r.Ok? ==> r.value.condition == Predicate(p.filter, p.search)
    ensures r.Ok? ==> r.value.page == p.page.GetOr(DefaultPage) && r.value.limit == p.limit.GetOr(DefaultLimit)
    ensures r.Ok? ==> r.value.skip == Skip(r.value.page, r.value.limit)
    ensures r.Ok? ==> r.value.projection == Projection(p.fields)
    ensures r.Ok? ==> Ok(r.value.sortOption) == ParseSort(p.sort)
  {
    if p.filter.Unparsable? then Err(MalformedFilter(p.filter.detail))
    else
      var condition := Predicate(p.filter, p.search);
      var page := p.page.GetOr(DefaultPage);
      var limit := p.limit.GetOr(DefaultLimit);
      var sortOption :- ParseSort(p.sort);
      Ok(Query(condition, Skip(page, limit), Projection(p.fields), sortOption, page, limit))
  }

  /** With every parameter omitted the query is "everything, first ten, in store order". */
  lemma DefaultQuery()
    ensures BuildQuery(NoParams) == Ok(Query(map[], 0, "", map[], 1, 10))
  {
  }

  /**
   Two requests that agree on `filter` and `search` select with the same
   predicate, whatever their page, limit, sort and fields.
   */
  lemma PredicateIgnoresWindow(p1: ListParams, p2: ListParams)
    requires p1.filter == p2.filter && p1.search == p2.search
    requires BuildQuery(p1).Ok? && BuildQuery(p2).Ok?
    ensures BuildQuery(p1).value.condition == BuildQuery(p2).value.condition
  {
  }
}

=== FILE: strings.dfy ===
/**
 String handling used by the list endpoint: JavaScript's `String.prototype.split`
 on a one-character separator, `Array.prototype.join`, and the decimal rendering
 of array indices that `Object.assign` uses as property keys.
 */
module Strings {

  /** Position of the first occurrence of `c` in `s`. */
  function IndexOf(s: string, c: char): (i: nat)
    requires c in s
    ensures i < |s| && s[i] == c
    ensures c !in s[..i]
  {
    if s[0] == c then 0
    else
      var j := IndexOf(s[1..], c);
      assert s[..j + 1] == [s[0]] + s[1..][..j];
      j + 1
  }

  /**
   `s.split(sep)` for a single-character separator: the pieces between
   consecutive separators, including empty ones. There is always at least one
   piece, even for the empty string.
   */
  function Split(s: string, sep: char): (parts: seq<string>)
    ensures |parts| >= 1
    ensures forall k :: 0 <= k < |parts| ==> sep !in parts[k]
    decreases |s|
  {
    if sep !in s then [s]
    else
      var i := IndexOf(s, sep);
      [s[..i]] + Split(s[i + 1..], sep)
  }

  /** `parts.join(sep)` for a single-character separator. */
  function Join(parts: seq<string>, sep: char): string
  {
    if |parts| == 0 then ""
    else if |parts| == 1 then parts[0]
    else parts[0] + [sep] + Join(parts[1..], sep)
  }

  /** `s` with every occurrence of `a` replaced by `b`, position by position. */
  function ReplaceChar(s: string, a: char, b: char): (r: string)
    ensures |r| == |s|
    ensures forall k :: 0 <= k < |s| ==> r[k] == if s[k] == a then b else s[k]
  {
    seq(|s|, k requires 0 <= k < |s| => if s[k] == a then b else s[k])
  }

  /** Splitting a string that does not contain the separator yields the string alone. */
  lemma SplitWithout(s: string, sep: char)
    requires sep !in s
    ensures Split(s, sep) == [s]
  {
  }

  /** A separator after a separator-free head cuts off exactly that head. */
  lemma {:induction false} SplitAfterHead(head: string, sep: char, tail: string)
    requires sep !in head
    ensures Split(head + [sep] + tail, sep) == [head] + Split(tail, sep)
  {
    var s := head + [sep] + tail;
    assert s[|head|] == sep;
    var i := IndexOf(s, sep);
    assert i == |head|;
    assert s[..i] == head;
    assert s[i + 1..] == tail;
  }

  /** Joining the pieces of a split with the same separator restores the string. */
  lemma {:induction false} JoinSplit(s: string, sep: char)
    ensures Join(Split(s, sep), sep) == s
    decreases |s|
  {
    if sep in s {
      var i := IndexOf(s, sep);
      var rest := Split(s[i + 1..], sep);
      JoinSplit(s[i + 1..], sep);
      SplitAtFirst(s, sep);
      JoinCons(s[..i], rest, sep);
    }
  }

  /** Replacing around one occurrence of `a` replaces the two sides and the occurrence separately. */
  lemma ReplaceAround(x: string, a: char, b: char, y: string)
    requires a !in x
    ensures ReplaceChar(x + [a] + y, a, b) == x + [b] + ReplaceChar(y, a, b)
  {
    var s := x + [a] + y;
    var r := ReplaceChar(s, a, b);
    var t := ReplaceChar(y, a, b);
    forall k | 0 <= k < |r|
      ensures r[k] == (x + [b] + t)[k]
    {
      if k < |x| {
        assert s[k] == x[k];
      } else if k > |x| {
        assert s[k] == y[k - |x| - 1];
      }
    }
  }

  /** Joining a piece in front of at least one more piece puts a separator between them. */
  lemma JoinCons(p: string, rest: seq<string>, sep: char)
    requires |rest| >= 1
    ensures Join([p] + rest, sep) == p + [sep] + Join(rest, sep)
  {
    assert ([p] + rest)[1..] == rest;
  }

  /** A split on a character that occurs cuts at its first occurrence. */
  lemma SplitAtFirst(s: string, sep: char)
    requires sep in s
    ensures var i := IndexOf(s, sep);
      Split(s, sep) == [s[..i]] + Split(s[i + 1..], sep) && s == s[..i] + [sep] + s[i + 1..]
  {
  }

  /**
   Splitting on one character and joining with another replaces every
   occurrence of the first character by the second, leaving the rest in place.
   */
  lemma {:induction false} JoinSplitReplaces(s: string, a: char, b: char)
    ensures Join(Split(s, a), b) == ReplaceChar(s, a, b)
    decreases |s|
  {
    if a !in s {
      assert ReplaceChar(s, a, b) == s;
    } else {
      var i := IndexOf(s, a);
      var head, tail := s[..i], s[i + 1..];
      SplitAtFirst(s, a);
      JoinSplitReplaces(tail, a, b);
      JoinCons(head, Split(tail, a), b);
      ReplaceAround(head, a, b, tail);
    }
  }

  /** Joining separator-free pieces and splitting again gives the pieces back. */
  lemma {:induction false} SplitJoin(parts: seq<string>, sep: char)
    requires |parts| >= 1
    requires forall k :: 0 <= k < |parts| ==> sep !in parts[k]
    ensures Split(Join(parts, sep), sep) == parts
    decreases |parts|
  {
    if |parts| == 1 {
      SplitWithout(parts[0], sep);
    } else {
      SplitJoin(parts[1..], sep);
      SplitAfterHead(parts[0], sep, Join(parts[1..], sep));
      assert parts == [parts[0]] + parts[1..];
    }
  }

  /** The first piece of a split is a prefix, followed by the end or by the separator. */
  lemma {:induction false} FirstPiece(s: string, sep: char)
    ensures var head := Split(s, sep)[0];
      |head| <= |s| && s[..|head|] == head && (|head| == |s| || s[|head|] == sep)
  {
    if sep in s {
      var i := IndexOf(s, sep);
      assert Split(s, sep)[0] == s[..i];
    }
  }

  /** A character absent from the input is absent from every piece of its split. */
  lemma {:induction false} SplitKeepsOut(s: string, sep: char, x: char)
    requires x !in s
    ensures forall k :: 0 <= k < |Split(s, sep)| ==> x !in Split(s, sep)[k]
    decreases |s|
  {
    if sep in s {
      var i := IndexOf(s, sep);
      assert s == s[..i] + [sep] + s[i + 1..];
      SplitKeepsOut(s[i + 1..], sep, x);
    }
  }

  /** The decimal digit for `d`. */
  function DigitChar(d: nat): char
    requires d < 10
  {
    ('0' as int + d) as char
  }

  /** The numeric value of a decimal digit character. */
  function DigitValue(c: char): int
  {
    c as int - '0' as int
  }

  /** `String(n)`: the shortest decimal rendering of `n`, as JavaScript writes array indices. */
  function NatToString(n: nat): (s: string)
    ensures 1 <= |s|
    ensures forall k :: 0 <= k < |s| ==> '0' <= s[k] <= '9'
    ensures |s| > 1 ==> s[0] != '0'
  {
    if n < 10 then [DigitChar(n)]
    else NatToString(n / 10) + [DigitChar(n % 10)]
  }

  /** Reads a string of decimal digits, most significant first. */
  function ParseDecimal(s: string): int
  {
    if |s| == 0 then 0
    else 10 * ParseDecimal(s[..|s| - 1]) + DigitValue(s[|s| - 1])
  }

  /** Reading back a rendered number gives the number. */
  lemma {:induction false} ParseNatToString(n: nat)
    ensures ParseDecimal(NatToString(n)) == n
  {
    var s := NatToString(n);
    if n < 10 {
      assert s[..0] == "";
    } else {
      ParseNatToString(n / 10);
      assert s[..|s| - 1] == NatToString(n / 10);
    }
  }

  /** Distinct numbers render as distinct strings, so array indices give distinct keys. */
  lemma NatToStringInjective(a: nat, b: nat)
    requires a != b
    ensures NatToString(a) != NatToString(b)
  {
    ParseNatToString(a);
    ParseNatToString(b);
  }
}

=== FILE: wrappers.dfy ===
/** Optional values and results with an error, shared by every other module. */
module Wrappers {

  /** A value that may be absent, as an omitted request parameter is. */
  datatype Option<+T> = None | Some(value: T) {

    /** The carried value, or `default` when there is none. */
    function GetOr(default: T): T {
      match this
      case Some(v) => v
      case None => default
    }
  }

  /** Either a value or the error that prevented computing it; usable with `:-`. */
  datatype Result<+T, +E> = Ok(value: T) | Err(error: E) {

    predicate IsFailure() {
      Err?
    }

    function PropagateFailure<U>(): Result<U, E>
      requires Err?
    {
      Err(error)
    }

    function Extract(): T
      requires Ok?
    {
      value
    }
  }
}
